=== FILE: README.md ===
# Restaurant order book, modelled in Dafny

The repository is a Swing desktop application for recording restaurant
orders. Its only logic is the in-memory order book in
`RestaurantOrderSystem.java`:

- an `Order` has an `int` id, an item name and a status string that starts
  as `"Preparing"`;
- an `OrderManager` keeps an insertion-ordered list of orders and a counter
  `nextOrderId`, which starts at 1. `addOrder` appends an order carrying the
  counter's value and then increments the counter. `updateOrderStatus` scans
  the list front to back and sets the status of the first order whose id
  matches. It returns `true` when it finds one and `false` otherwise.
  `getOrders` returns the list.

The two button handlers of the window sit in front of these operations.
"Add Order" trims the item name and refuses an empty one. "Update Status"
refuses an empty or non-numeric id and reports an id that is not found.

The model is functional. A `Manager` is an immutable value holding the
orders as a `seq<Order>` and the counter. Each Java operation becomes a
pure function from the old manager to the new one.

Files:

- `java_int.dfy` (`JavaInt`): Java's 32-bit `int` and the wrap-around of `n++`.
- `orders.dfy` (`Orders`): the `Order` record and the status strings.
- `order_manager.dfy` (`OrderManager`): the manager, its operations, the
  invariant and the lemmas about single operations.
- `order_history.dfy` (`OrderHistory`): any sequence of adds and updates
  run from a fresh manager.
- `order_forms.dfy` (`OrderForms`): the two button handlers, including
  Java's `String.trim`.

The `Order` constructor (lines 13-17) appears in `AddOrder` as the record
value `Order(id, name, Preparing)`. `setStatus` (lines 31-33) appears in
`UpdateOrderStatus` as the record update `o.(status := s)`. The getters
(lines 19-29) are the fields of the `Order` datatype.

Ids and the counter are Java `int`s, so `nextOrderId++` wraps from
`Integer.MAX_VALUE` to `Integer.MIN_VALUE`. The model keeps that
wrap-around. An add keeps the invariant only while the counter is below
`Integer.MAX_VALUE`. A valid manager therefore holds at most 2^31 - 2
orders, and its counter is then exactly `Integer.MAX_VALUE`. The next add
wraps the counter and breaks the invariant, as `AddOrderWrapsAtMaxInt`
shows.

Some points follow the source's types and return values:

- The status is an arbitrary `String` in the source (lines 11 and 31).
  Only the selector of the update form offers just "Preparing", "Ready" and
  "Delivered" (line 128). The form layer models that restriction as an
  invariant.
- `addOrder` returns nothing (line 51). The new order is the last element of
  the resulting list.
- The k-th add assigns id k for the first 2^31 - 1 adds, and the last of
  these leaves the counter wrapped at `Integer.MIN_VALUE`. Add number 2^31
  would take that id, but an `ArrayList` cannot hold that many orders (see
  "Left out").

## Model

| member | source | states |
|---|---|---|
| JavaInt.Wrap32 | RestaurantOrderSystem.java:44 | narrowing to a Java `int` returns a value in the 32-bit range that agrees with the exact result modulo 2^32, and returns in-range values unchanged |
| JavaInt.Inc32 | RestaurantOrderSystem.java:52 | `nextOrderId++` adds one below `Integer.MAX_VALUE` and wraps to `Integer.MIN_VALUE` at it |
| OrderManager.Init | RestaurantOrderSystem.java:46-49 | a new manager has no orders, its counter is 1, and it satisfies the invariant (strictly increasing ids, every id in 1 .. counter - 1, counter = length + 1) |
| OrderManager.AddOrder | RestaurantOrderSystem.java:51-54 | the list grows by exactly one and every earlier order is unchanged. The new last order has the old counter as id, the given name and status "Preparing" (the constructor at lines 13-17). The counter goes up by one, or wraps at `Integer.MAX_VALUE` |
| OrderManager.FindIndex | RestaurantOrderSystem.java:57-58 | the scan finds a position exactly when some order has the id. The position it returns holds that id, and no earlier order has it |
| OrderManager.UpdateOrderStatus | RestaurantOrderSystem.java:56-64 | returns true iff some order has the id. On true, the first such order is the only one changed, and only its status, which becomes the given status. On false, the manager is unchanged. Length, ids, item names and the counter never change |
| OrderManager.UpdateOrderStatusScan | RestaurantOrderSystem.java:56-64 | the source's early-return for-loop computes the same result and the same manager as `UpdateOrderStatus` |
| OrderManager.GetOrders | RestaurantOrderSystem.java:66-68 | returns the manager's own orders in insertion order, and in a valid manager each order's id is its 1-based position. The history lemmas below state their results through it |
| OrderManager.FirstMatchUnique | RestaurantOrderSystem.java:57-60 | any position that holds the id with no earlier match is the one the scan stops at |
| OrderManager.ValidIffDense | RestaurantOrderSystem.java:48-53 | a manager satisfies the invariant exactly when its ids are 1, 2, ..., n in list order and its counter is n + 1 |
| OrderManager.ValidHasUniqueIds | RestaurantOrderSystem.java:52 | in a valid manager no two orders share an id |
| OrderManager.AddOrderPreservesValid | RestaurantOrderSystem.java:48-54 | adding to a valid manager whose counter is below `Integer.MAX_VALUE` yields a valid manager |
| OrderManager.UpdateOrderStatusPreservesValid | RestaurantOrderSystem.java:56-64 | updating a valid manager yields a valid manager, whatever the outcome |
| OrderManager.UpdateOrderStatusOnValid | RestaurantOrderSystem.java:56-63 | in a valid manager an update succeeds iff 1 <= id < counter, and then it changes only the status of the order at position id - 1 |
| OrderManager.UpdateOrderStatusIdempotent | RestaurantOrderSystem.java:56-64 | repeating an update with the same id and status returns the same result and leaves the manager as the first call left it |
| OrderManager.AddOrderWrapsAtMaxInt | RestaurantOrderSystem.java:52 | with the counter at `Integer.MAX_VALUE`, one add wraps it to `Integer.MIN_VALUE` and breaks the invariant. A second add builds an order with id `Integer.MIN_VALUE`; in the model's unbounded list it is appended and the ids stop increasing. From a fresh manager that second add is add number 2^31, which the source's `ArrayList` cannot take (see "Left out") |
| OrderHistory.RunFromInit | RestaurantOrderSystem.java:46-64 | for any mix of adds and updates from a fresh manager with at most 2^31 - 2 adds, the invariant holds and the counter is the number of adds plus one. In the list `GetOrders` returns, the k-th order has id k and the k-th added name |
| OrderHistory.AddsFromInit | RestaurantOrderSystem.java:13-17 | after up to 2^31 - 1 adds only from a fresh manager, `GetOrders` returns exactly the orders (k, k-th name, "Preparing"). The counter is the number of adds plus one, except at exactly 2^31 - 1 adds, where it has wrapped to `Integer.MIN_VALUE` while the last order still has id `Integer.MAX_VALUE` |
| OrderHistory.NextAddIdAfterRun | RestaurantOrderSystem.java:52 | ids are never reused: after n adds, with any updates in between, the next add gets id n + 1 |
| OrderHistory.PizzaScenario | RestaurantOrderSystem.java:51-63 | adding "Pizza" to a fresh manager gives order 1 in "Preparing". Updating id 1 to "Ready" succeeds and changes only the status. Updating id 999 fails and changes nothing |
| OrderForms.Trim | RestaurantOrderSystem.java:105 | `String.trim` removes runs of characters at or below U+0020 from both ends and leaves no such character at either end. The result is empty iff the text is all such characters |
| OrderForms.TrimUnique | RestaurantOrderSystem.java:105 | those two conditions determine the trimmed string: any string that meets them is `Trim(s)` |
| OrderForms.TrimIdempotent | RestaurantOrderSystem.java:105 | trimming an already trimmed string changes nothing |
| OrderForms.SubmitNewOrder | RestaurantOrderSystem.java:104-113 | the add handler rejects the submission with "Item name cannot be empty." iff the field is blank after trimming. Otherwise it adds one order whose name is the non-empty trimmed field text |
| OrderForms.SubmitStatusUpdate | RestaurantOrderSystem.java:134-153 | the update handler rejects a blank id with "Order ID cannot be empty." and an unparsable id with "Order ID must be a valid number.". For a parsed id it changes the manager iff an order has that id, and otherwise reports "Order ID not found.". A change sets only the first match's status and keeps the counter |
| OrderForms.SubmitNewOrderPreservesInvariant | RestaurantOrderSystem.java:104-113 | orders entered through the forms keep non-empty trimmed names, offered statuses and the id invariant after an add (counter below `Integer.MAX_VALUE`) |
| OrderForms.SubmitStatusUpdatePreservesInvariant | RestaurantOrderSystem.java:128-140 | choosing the status from the selector's three values keeps that form invariant after an update |

## Left out

- Swing window construction, layout, dialogs and listener wiring (lines 72-169): presentation only. A rejected submission is modelled by the dialog message it would show.
- `Integer.parseInt` (line 138): library parsing. `SubmitStatusUpdate` takes its outcome as a parameter, where `None` stands for a `NumberFormatException`.
- `Order.toString` and `refreshOrderDisplay` (lines 35-38, 171-181): display rendering only.
- `main` and `SwingUtilities.invokeLater` (lines 183-190): event-thread scheduling.
- The aliasing of the mutable `ArrayList` returned by `getOrders` (lines 66-68): the model returns the list by value.
- AddOrderPreservesValid: requires the counter to be below `Integer.MAX_VALUE`, because Java's `int` counter wraps after that (see `AddOrderWrapsAtMaxInt`).
- RunFromInit: holds only for at most 2^31 - 2 adds, for the same wrap-around reason.
- NextAddIdAfterRun: holds only for at most 2^31 - 2 adds, for the same wrap-around reason.
- SubmitNewOrderPreservesInvariant: requires the counter to be below `Integer.MAX_VALUE`, for the same wrap-around reason.
- The list is unbounded. An `ArrayList` holds at most `Integer.MAX_VALUE` orders. Add number 2^31 therefore throws `OutOfMemoryError` in `orders.add` (line 53), after `nextOrderId++` (line 52) has already advanced, where `AddOrder` appends. The JVM's heap usually runs out well before that.
- Java strings are UTF-16 code unit sequences. The model uses Dafny characters, and `String.trim`'s comparison with U+0020 is the same for both.

=== FILE: java_int.dfy ===
/** Java's 32-bit `int`: the type of order ids and of the id counter. */
module JavaInt {

  const MinInt32: int := -0x8000_0000
  const MaxInt32: int := 0x7fff_ffff
  const Modulus32: int := 0x1_0000_0000

  type int32 = x: int | -0x8000_0000 <= x <= 0x7fff_ffff

  /** The value a Java `int` holds when the mathematical result `x` is narrowed
      to 32 bits (two's-complement wrap-around). */
  function Wrap32(x: int): (r: int32)
    ensures (x - r) % Modulus32 == 0
    ensures MinInt32 <= x <= MaxInt32 ==> r == x
  {
    (x - MinInt32) % Modulus32 + MinInt32
  }

  /** The value of `n` after `n++` on a Java `int`. */
  function Inc32(n: int32): (r: int32)
    ensures n < MaxInt32 ==> r == n + 1
    ensures n == MaxInt32 ==> r == MinInt32
  {
    Wrap32(n + 1)
  }
}

=== FILE: order_forms.dfy ===
/** The two form handlers of the window: the guard in front of `addOrder`
    and the checks in front of `updateOrderStatus`. Widgets, dialogs and
    redrawing are not modelled; a rejected submission is reported by the
    dialog message it would show. */
module OrderForms {
  import opened JavaInt
  import opened Orders
  import opened OrderManager

  const EmptyItemNameMessage: string := "Item name cannot be empty."
  const EmptyOrderIdMessage: string := "Order ID cannot be empty."
  const NotANumberMessage: string := "Order ID must be a valid number."
  const OrderNotFoundMessage: string := "Order ID not found."

  /** A submission either changes the manager or is rejected with a message;
      a rejected submission leaves the manager as it was. */
  datatype FormOutcome = Changed(manager: Manager) | Rejected(message: string)

  // ---------------------------------------------------------------------
  // Java's String.trim: strip every character at or below U+0020 from
  // both ends
  // ---------------------------------------------------------------------

  predicate IsSpace(c: char)
  {
    c <= ' '
  }

  predicate AllSpace(s: string)
  {
    forall k :: 0 <= k < |s| ==> IsSpace(s[k])
  }

  /** Neither end of `s` is a character that trimming would strip. */
  predicate IsTrimmed(s: string)
  {
    |s| == 0 || (!IsSpace(s[0]) && !IsSpace(s[|s| - 1]))
  }

  /** `r` is `s` with a run of space characters removed at each end, the
      kept part starting at `start`. */
  predicate StripsAt(s: string, r: string, start: int)
  {
    && 0 <= start <= start + |r| <= |s|
    && s[start..start + |r|] == r
    && AllSpace(s[..start])
    && AllSpace(s[start + |r|..])
  }

  ghost predicate StripsTo(s: string, r: string)
  {
    exists start :: StripsAt(s, r, start)
  }

  /** The number of space characters `s` starts with. */
  function LeadingSpaces(s: string): (n: nat)
    ensures n <= |s|
    ensures AllSpace(s[..n])
    ensures n < |s| ==> !IsSpace(s[n])
  {
    if |s| > 0 && IsSpace(s[0]) then
      var n := 1 + LeadingSpaces(s[1..]);
      assert s[..n] == [s[0]] + s[1..][..n - 1];
      n
    else 0
  }

  /** The number of space characters `s` ends with. */
  function TrailingSpaces(s: string): (n: nat)
    ensures n <= |s|
    ensures AllSpace(s[|s| - n..])
    ensures n < |s| ==> !IsSpace(s[|s| - n - 1])
  {
    if |s| > 0 && IsSpace(s[|s| - 1]) then
      var n := 1 + TrailingSpaces(s[..|s| - 1]);
      assert s[|s| - n..] == s[..|s| - 1][|s| - n..] + [s[|s| - 1]];
      n
    else 0
  }

  function Trim(s: string): (r: string)
    ensures StripsTo(s, r)
    ensures IsTrimmed(r)
    ensures |r| == 0 <==> AllSpace(s)
  {
    var start := LeadingSpaces(s);
    var rest := s[start..];
    var cut := TrailingSpaces(rest);
    var r := rest[..|rest| - cut];
    KeptPart(s);
    r
  }

  /** The part `Trim` keeps, between the leading and the trailing spaces,
      meets the three conditions of its contract. */
  lemma KeptPart(s: string)
    ensures var start := LeadingSpaces(s);
      var cut := TrailingSpaces(s[start..]);
      var r := s[start..][..|s| - start - cut];
      && StripsTo(s, r)
      && IsTrimmed(r)
      && (|r| == 0 <==> AllSpace(s))
  {
    var start := LeadingSpaces(s);
    var rest := s[start..];
    var cut := TrailingSpaces(rest);
    var r := rest[..|rest| - cut];
    assert s[start..start + |r|] == r;
    assert s[start + |r|..] == rest[|rest| - cut..];
    assert StripsAt(s, r, start);
    if |r| == 0 {
      assert s == s[..start] + rest;
    } else {
      assert r[0] == s[start];
      assert r[|r| - 1] == rest[|rest| - cut - 1];
    }
  }

  // ---------------------------------------------------------------------
  // The handlers
  // ---------------------------------------------------------------------

  /** The "Add Order" button: the trimmed field text becomes the item name,
      unless nothing is left after trimming. */
  function SubmitNewOrder(m: Manager, fieldText: string): (r: FormOutcome)
    ensures r.Rejected? <==> AllSpace(fieldText)
    ensures r.Rejected? ==> r.message == EmptyItemNameMessage
    ensures r.Changed? ==> |r.manager.orders| == |m.orders| + 1
    ensures r.Changed? ==>
      var name := r.manager.orders[|m.orders|].itemName;
      && r.manager == AddOrder(m, name)
      && StripsTo(fieldText, name)
      && name != [] && IsTrimmed(name)
  {
    var itemName := Trim(fieldText);
    if itemName == [] then Rejected(EmptyItemNameMessage)
    else Changed(AddOrder(m, itemName))
  }

  /** The "Update Status" button. `parsed` is what `Integer.parseInt` makes
      of the trimmed id text (`None` where it throws), and `selected` is the
      status chosen in the selector. */
  function SubmitStatusUpdate(m: Manager, idText: string, parsed: Option<int32>, selected: Status)
    : (r: FormOutcome)
    ensures AllSpace(idText) ==> r == Rejected(EmptyOrderIdMessage)
    ensures !AllSpace(idText) && parsed.None? ==> r == Rejected(NotANumberMessage)
    ensures !AllSpace(idText) && parsed.Some? ==>
      && (r.Changed? <==> HasId(m.orders, parsed.value))
      && (r.Rejected? ==> r.message == OrderNotFoundMessage)
    ensures r.Changed? ==>
      && parsed.Some?
      && exists k :: IsFirstMatch(m.orders, parsed.value, k)
                  && OnlyStatusSetAt(m.orders, r.manager.orders, k, selected)
    ensures r.Changed? ==> r.manager.nextOrderId == m.nextOrderId
  {
    if Trim(idText) == [] then Rejected(EmptyOrderIdMessage)
    else match parsed
      case None => Rejected(NotANumberMessage)
      case Some(orderId) =>
        var res := UpdateOrderStatus(m, orderId, selected);
        if res.updated then Changed(res.manager) else Rejected(OrderNotFoundMessage)
  }

  // ---------------------------------------------------------------------
  // What the window guarantees about the orders it creates
  // ---------------------------------------------------------------------

  /** Orders entered through the window have a non-empty trimmed item name
      and one of the statuses the selector offers. */
  predicate FormInvariant(m: Manager)
  {
    && Valid(m)
    && forall i :: 0 <= i < |m.orders| ==>
         && m.orders[i].itemName != []
         && IsTrimmed(m.orders[i].itemName)
         && m.orders[i].status in OfferedStatuses
  }

  /** Java's trim is characterised by its contract: stripping space runs off
      both ends and leaving no space at either end yields exactly `Trim(s)`. */
  lemma TrimUnique(s: string, r: string)
    requires StripsTo(s, r) && IsTrimmed(r)
    ensures r == Trim(s)
  {
  }

  /** Trimming twice is trimming once. */
  lemma TrimIdempotent(s: string)
    ensures Trim(Trim(s)) == Trim(s)
  {
  }

  /** Adding through the form keeps the form invariant, as long as the id
      counter has not reached `Integer.MAX_VALUE`. */
  lemma SubmitNewOrderPreservesInvariant(m: Manager, fieldText: string)
    requires FormInvariant(m)
    requires m.nextOrderId < MaxInt32
    ensures match SubmitNewOrder(m, fieldText)
      case Changed(m') => FormInvariant(m')
      case Rejected(_) => true
  {
  }

  /** Updating through the form keeps the form invariant when the selected
      status is one the selector offers. */
  lemma SubmitStatusUpdatePreservesInvariant(m: Manager, idText: string, parsed: Option<int32>, selected: Status)
    requires FormInvariant(m)
    requires selected in OfferedStatuses
    ensures match SubmitStatusUpdate(m, idText, parsed, selected)
      case Changed(m') => FormInvariant(m')
      case Rejected(_) => true
  {
  }
}

=== FILE: order_history.dfy ===
/** Sequences of calls into the order manager, starting from a freshly
    constructed one: the ids they hand out and the lists they build. */
module OrderHistory {
  import opened JavaInt
  import opened Orders
  import opened OrderManager

  datatype Command =
    | AddCommand(itemName: string)
    | UpdateCommand(orderId: int32, status: Status)

  function Apply(m: Manager, c: Command): Manager
  {
    match c
    case AddCommand(name) => AddOrder(m, name)
    case UpdateCommand(id, status) => UpdateOrderStatus(m, id, status).manager
  }

  /** The manager after running the commands in order. */
  function Run(m: Manager, cs: seq<Command>): Manager
  {
    if |cs| == 0 then m else Apply(Run(m, cs[..|cs| - 1]), cs[|cs| - 1])
  }

  /** The item names of the add commands, in the order they were issued. */
  function AddedNames(cs: seq<Command>): (names: seq<string>)
    ensures |names| <= |cs|
  {
    if |cs| == 0 then []
    else
      var names := AddedNames(cs[..|cs| - 1]);
      match cs[|cs| - 1]
      case AddCommand(name) => names + [name]
      case UpdateCommand(_, _) => names
  }

  predicate AddsOnly(cs: seq<Command>)
  {
    forall i :: 0 <= i < |cs| ==> cs[i].AddCommand?
  }

  /** Any mix of adds and updates from a fresh manager: the k-th add got id k
      and the k-th item name, the invariant holds, and the counter is one past
      the number of adds, so the next add hands out a never-used id. */
  lemma {:induction false} RunFromInit(cs: seq<Command>)
    requires |AddedNames(cs)| < MaxInt32
    ensures var m := Run(Init(), cs);
      var orders := GetOrders(m);
      && Valid(m)
      && |orders| == |AddedNames(cs)|
      && m.nextOrderId == |AddedNames(cs)| + 1
      && forall i :: 0 <= i < |orders| ==>
           orders[i].orderId == i + 1 && orders[i].itemName == AddedNames(cs)[i]
  {
    if |cs| > 0 {
      var init := cs[..|cs| - 1];
      var c := cs[|cs| - 1];
      var prev := Run(Init(), init);
      RunFromInit(init);
      ValidIffDense(prev);
      var m := Run(Init(), cs);
      match c
      case AddCommand(name) =>
        AddOrderPreservesValid(prev, name);
        ValidIffDense(m);
        forall i | 0 <= i < |m.orders|
          ensures m.orders[i].itemName == AddedNames(cs)[i]
        {
          if i < |prev.orders| {
            assert m.orders[i] == m.orders[..|prev.orders|][i];
          }
        }
      case UpdateCommand(id, status) =>
        UpdateOrderStatusPreservesValid(prev, id, status);
    }
  }

  /** With only add commands, every command contributes its item name. */
  lemma {:induction false} AddedNamesOfAddsOnly(cs: seq<Command>)
    requires AddsOnly(cs)
    ensures |AddedNames(cs)| == |cs|
  {
    if |cs| > 0 {
      var init := cs[..|cs| - 1];
      assert AddsOnly(init) by {
        forall i | 0 <= i < |init| ensures init[i].AddCommand? {
          assert init[i] == cs[i];
        }
      }
      AddedNamesOfAddsOnly(init);
    }
  }

  /** Only adds from a fresh manager: the list is exactly the orders
      (k, k-th name, "Preparing"), and the counter is one past the last id,
      except after 2^31 - 1 adds, when it has wrapped to `Integer.MIN_VALUE`. */
  lemma {:induction false} AddsFromInit(cs: seq<Command>)
    requires AddsOnly(cs)
    requires |cs| <= MaxInt32
    ensures var m := Run(Init(), cs);
      var orders := GetOrders(m);
      && |orders| == |cs|
      && (forall i :: 0 <= i < |cs| ==> orders[i] == Order(i + 1, cs[i].itemName, Preparing))
      && (|cs| < MaxInt32 ==> m.nextOrderId == |cs| + 1)
      && (|cs| == MaxInt32 ==> m.nextOrderId == MinInt32)
  {
    if |cs| > 0 {
      var init := cs[..|cs| - 1];
      var prev := Run(Init(), init);
      var m := Run(Init(), cs);
      assert AddsOnly(init) by {
        forall i | 0 <= i < |init| ensures init[i].AddCommand? {
          assert init[i] == cs[i];
        }
      }
      AddsFromInit(init);
      AddedNamesOfAddsOnly(init);
      RunFromInit(init);
      forall i | 0 <= i < |cs|
        ensures m.orders[i] == Order(i + 1, cs[i].itemName, Preparing)
      {
        if i < |prev.orders| {
          assert m.orders[i] == m.orders[..|prev.orders|][i];
          assert cs[i] == init[i];
        }
      }
    }
  }

  /** Ids are never reused: whatever updates happened in between, the next
      add after n adds hands out id n + 1. */
  lemma NextAddIdAfterRun(cs: seq<Command>, itemName: string)
    requires |AddedNames(cs)| < MaxInt32
    ensures var orders := GetOrders(AddOrder(Run(Init(), cs), itemName));
      orders[|orders| - 1].orderId == |AddedNames(cs)| + 1
  {
  }

  /** A short session: add "Pizza", set it to "Ready", then try an id that
      was never handed out. */
  lemma PizzaScenario()
    ensures var m1 := AddOrder(Init(), "Pizza");
      var r2 := UpdateOrderStatus(m1, 1, Ready);
      var r3 := UpdateOrderStatus(r2.manager, 999, Ready);
      && GetOrders(m1) == [Order(1, "Pizza", Preparing)]
      && r2.updated && GetOrders(r2.manager) == [Order(1, "Pizza", Ready)]
      && !r3.updated && r3.manager == r2.manager
  {
  }
}

=== FILE: order_manager.dfy ===
/** The order book: an insertion-ordered list of orders and the counter
    from which the next order's id is taken. */
module OrderManager {
  import opened JavaInt
  import opened Orders

  datatype Option<T> = None | Some(value: T)

  datatype Manager = Manager(orders: seq<Order>, nextOrderId: int32)

  /** What `updateOrderStatus` reports, together with the manager after the call. */
  datatype UpdateResult = UpdateResult(updated: bool, manager: Manager)

  // ---------------------------------------------------------------------
  // The invariant every reachable manager keeps
  // ---------------------------------------------------------------------

  predicate StrictlyIncreasingIds(orders: seq<Order>)
  {
    forall i, j :: 0 <= i < j < |orders| ==> orders[i].orderId < orders[j].orderId
  }

  /** Every id is positive and was handed out before the counter's current value. */
  predicate IdsIssuedBelow(orders: seq<Order>, bound: int)
  {
    forall i :: 0 <= i < |orders| ==> 1 <= orders[i].orderId < bound
  }

  predicate Valid(m: Manager)
  {
    && StrictlyIncreasingIds(m.orders)
    && IdsIssuedBelow(m.orders, m.nextOrderId)
    && m.nextOrderId == |m.orders| + 1
  }

  /** The ids are exactly the positions 1, 2, ..., |orders| in list order. */
  predicate DenseIds(orders: seq<Order>)
  {
    forall i :: 0 <= i < |orders| ==> orders[i].orderId == i + 1
  }

  predicate UniqueIds(orders: seq<Order>)
  {
    forall i, j :: 0 <= i < |orders| && 0 <= j < |orders| && i != j ==> orders[i].orderId != orders[j].orderId
  }

  predicate HasId(orders: seq<Order>, orderId: int)
  {
    exists i :: 0 <= i < |orders| && orders[i].orderId == orderId
  }

  /** `k` is the position the source's front-to-back scan stops at. */
  predicate IsFirstMatch(orders: seq<Order>, orderId: int, k: int)
  {
    && 0 <= k < |orders|
    && orders[k].orderId == orderId
    && forall j :: 0 <= j < k ==> orders[j].orderId != orderId
  }

  /** `after` is `before` with only the status of the order at `k` set to `status`. */
  predicate OnlyStatusSetAt(before: seq<Order>, after: seq<Order>, k: int, status: Status)
  {
    && |after| == |before|
    && 0 <= k < |before|
    && after[k] == before[k].(status := status)
    && forall i :: 0 <= i < |before| && i != k ==> after[i] == before[i]
  }

  /** Same length, and each position keeps its id and item name. */
  predicate SameIdsAndNames(before: seq<Order>, after: seq<Order>)
  {
    && |after| == |before|
    && forall i :: 0 <= i < |before| ==>
         after[i].orderId == before[i].orderId && after[i].itemName == before[i].itemName
  }

  // ---------------------------------------------------------------------
  // Operations
  // ---------------------------------------------------------------------

  /** The manager as constructed: no orders, and the first id to hand out is 1. */
  function Init(): (m: Manager)
    ensures |m.orders| == 0 && m.nextOrderId == 1
    ensures Valid(m)
  {
    Manager([], 1)
  }

  /** `addOrder`: append a new order carrying the counter's current value,
      then advance the counter with Java `int` arithmetic. */
  function AddOrder(m: Manager, itemName: string): (m': Manager)
    ensures |m'.orders| == |m.orders| + 1
    ensures m'.orders[..|m.orders|] == m.orders
    ensures m'.orders[|m.orders|] == Order(m.nextOrderId, itemName, Preparing)
    ensures m.nextOrderId < MaxInt32 ==> m'.nextOrderId == m.nextOrderId + 1
    ensures m.nextOrderId == MaxInt32 ==> m'.nextOrderId == MinInt32
  {
    Manager(m.orders + [Order(m.nextOrderId, itemName, Preparing)], Inc32(m.nextOrderId))
  }

  /** The position of the first order with the given id, if any. */
  function FindIndex(orders: seq<Order>, orderId: int): (r: Option<nat>)
    ensures r.Some? ==> IsFirstMatch(orders, orderId, r.value)
    ensures r.None? <==> !HasId(orders, orderId)
  {
    if |orders| == 0 then None
    else if orders[0].orderId == orderId then Some(0)
    else match FindIndex(orders[1..], orderId)
      case None => None
      case Some(k) => Some(k + 1)
  }

  /** `updateOrderStatus`: set the status of the first order with the given
      id and report `true`, or report `false` and change nothing. */
  function UpdateOrderStatus(m: Manager, orderId: int32, status: Status): (r: UpdateResult)
    ensures r.updated <==> HasId(m.orders, orderId)
    ensures !r.updated ==> r.manager == m
    ensures r.updated ==> exists k :: IsFirstMatch(m.orders, orderId, k)
                                   && OnlyStatusSetAt(m.orders, r.manager.orders, k, status)
    ensures SameIdsAndNames(m.orders, r.manager.orders)
    ensures r.manager.nextOrderId == m.nextOrderId
  {
    match FindIndex(m.orders, orderId)
    case None => UpdateResult(false, m)
    case Some(k) =>
      var orders' := m.orders[k := m.orders[k].(status := status)];
      assert OnlyStatusSetAt(m.orders, orders', k, status);
      UpdateResult(true, m.(orders := orders'))
  }

  /** `getOrders`: the manager's own orders, by value and in insertion
      order. In a valid manager the id of each order is its 1-based position. */
  function GetOrders(m: Manager): (r: seq<Order>)
    ensures r == m.orders
    ensures Valid(m) ==> DenseIds(r)
  {
    ValidIffDense(m);
    m.orders
  }

  /** The scan of `updateOrderStatus` as the source writes it: a
      front-to-back loop that stops at the first matching id. */
  method UpdateOrderStatusScan(m: Manager, orderId: int32, status: Status)
    returns (updated: bool, m': Manager)
    ensures UpdateResult(updated, m') == UpdateOrderStatus(m, orderId, status)
  {
    var i := 0;
    while i < |m.orders|
      invariant 0 <= i <= |m.orders|
      invariant forall j :: 0 <= j < i ==> m.orders[j].orderId != orderId
    {
      if m.orders[i].orderId == orderId {
        FirstMatchUnique(m.orders, orderId, i);
        updated := true;
        m' := m.(orders := m.orders[i := m.orders[i].(status := status)]);
        return;
      }
      i := i + 1;
    }
    updated := false;
    m' := m;
  }

  // ---------------------------------------------------------------------
  // Lemmas
  // ---------------------------------------------------------------------

  /** The scan position is determined by the ids alone: there is one first match. */
  lemma FirstMatchUnique(orders: seq<Order>, orderId: int, k: int)
    requires IsFirstMatch(orders, orderId, k)
    ensures FindIndex(orders, orderId) == Some(k)
  {
  }

  /** Ids that are strictly increasing and at least 1 are at least their 1-based position. */
  lemma {:induction false} IdsAtLeastPosition(orders: seq<Order>, bound: int, i: nat)
    requires StrictlyIncreasingIds(orders)
    requires IdsIssuedBelow(orders, bound)
    requires i < |orders|
    ensures orders[i].orderId >= i + 1
  {
    if i > 0 {
      IdsAtLeastPosition(orders, bound, i - 1);
      assert orders[i - 1].orderId < orders[i].orderId;
    }
  }

  /** Strictly increasing ids below `bound` leave room for the orders after position `i`. */
  lemma {:induction false} IdsAtMostPosition(orders: seq<Order>, bound: int, i: nat)
    requires StrictlyIncreasingIds(orders)
    requires IdsIssuedBelow(orders, bound)
    requires i < |orders|
    ensures orders[i].orderId <= bound - (|orders| - i)
    decreases |orders| - i
  {
    if i < |orders| - 1 {
      IdsAtMostPosition(orders, bound, i + 1);
      assert orders[i].orderId < orders[i + 1].orderId;
    }
  }

  /** The invariant pins every id down: a manager is valid exactly when its
      ids are its 1-based positions and the counter is one past the last. */
  lemma ValidIffDense(m: Manager)
    ensures Valid(m) <==> DenseIds(m.orders) && m.nextOrderId == |m.orders| + 1
  {
    if Valid(m) {
      forall i | 0 <= i < |m.orders|
        ensures m.orders[i].orderId == i + 1
      {
        IdsAtLeastPosition(m.orders, m.nextOrderId, i);
        IdsAtMostPosition(m.orders, m.nextOrderId, i);
      }
    }
  }

  /** In a valid manager no two orders share an id. */
  lemma ValidHasUniqueIds(m: Manager)
    requires Valid(m)
    ensures UniqueIds(m.orders)
  {
  }

  /** Adding keeps the invariant as long as the counter has not reached
      `Integer.MAX_VALUE`; at that point `nextOrderId++` wraps around. */
  lemma AddOrderPreservesValid(m: Manager, itemName: string)
    requires Valid(m)
    requires m.nextOrderId < MaxInt32
    ensures Valid(AddOrder(m, itemName))
  {
  }

  /** Updating a status never disturbs the invariant. */
  lemma UpdateOrderStatusPreservesValid(m: Manager, orderId: int32, status: Status)
    requires Valid(m)
    ensures Valid(UpdateOrderStatus(m, orderId, status).manager)
  {
  }

  /** With the invariant the scan finds an order exactly for the ids already
      handed out, and the order it changes is the one at position `orderId - 1`. */
  lemma UpdateOrderStatusOnValid(m: Manager, orderId: int32, status: Status)
    requires Valid(m)
    ensures var r := UpdateOrderStatus(m, orderId, status);
      && (r.updated <==> 1 <= orderId < m.nextOrderId)
      && (r.updated ==> OnlyStatusSetAt(m.orders, r.manager.orders, orderId - 1, status))
  {
    ValidIffDense(m);
    var r := UpdateOrderStatus(m, orderId, status);
    if 1 <= orderId < m.nextOrderId {
      assert m.orders[orderId - 1].orderId == orderId;
    }
    if r.updated {
      var k :| IsFirstMatch(m.orders, orderId, k) && OnlyStatusSetAt(m.orders, r.manager.orders, k, status);
      assert k == orderId - 1;
    }
  }

  /** Repeating an update with the same arguments reports the same outcome
      and leaves the manager as the first call left it. */
  lemma UpdateOrderStatusIdempotent(m: Manager, orderId: int32, status: Status)
    ensures var r1 := UpdateOrderStatus(m, orderId, status);
      UpdateOrderStatus(r1.manager, orderId, status) == r1
  {
  }

  /** Once the counter sits at `Integer.MAX_VALUE`, two more adds wrap it and
      the ids stop increasing; the invariant is lost. */
  lemma AddOrderWrapsAtMaxInt(m: Manager, first: string, second: string)
    requires m.nextOrderId == MaxInt32
    ensures var m1 := AddOrder(m, first);
      var m2 := AddOrder(m1, second);
      && m1.nextOrderId == MinInt32
      && !Valid(m1)
      && m2.orders[|m2.orders| - 1].orderId == MinInt32
      && !StrictlyIncreasingIds(m2.orders)
  {
  }
}

=== FILE: orders.dfy ===
/** A single order: an id and an item name fixed at creation, and a status. */
module Orders {
  import opened JavaInt

  /** The status is an arbitrary string; only the status selector of the
      form restricts it to the three values below. */
  type Status = string

  const Preparing: Status := "Preparing"
  const Ready: Status := "Ready"
  const Delivered: Status := "Delivered"

  /** The statuses the update form offers, in the order it lists them. */
  const OfferedStatuses: seq<Status> := [Preparing, Ready, Delivered]

  /** An order is created with status `Preparing` (see `AddOrder`); after
      that only its status is ever replaced (see `UpdateOrderStatus`). */
  datatype Order = Order(orderId: int32, itemName: string, status: Status)
}
